=== FILE: README.md ===
# Address book bot: a verified model

A Dafny model of the contact bot in `Main.py`. The bot keeps an address book of contact
records. Each record holds a name, a list of phone numbers and an optional birthday. It
offers commands to add a contact, change a phone, show a contact's phones and set a
birthday, and it lists the colleagues whose birthday falls in the coming week.

The modules follow the program's structure:

- `Errors` (`errors.dfy`) holds the exception kinds the program raises or catches, and the
  `Result` and `Option` types that stand for "returns or raises" and for `Optional`.
- `Calendar` (`calendar.dfy`) models the part of Python's `datetime.date` the program uses:
  - valid dates from year 1 to 9999;
  - the ordinal count from 0001-01-01;
  - `weekday()`;
  - `date + timedelta(days=n)` with its overflow check.

  The year-by-year day count is proved equal to Python's closed form, and the month sums
  equal its month table.
- `Fields` (`fields.dfy`) covers the two validated fields:
  - `Phone`: a class whose value is any string with exactly ten digit characters, kept
    exactly as given;
  - the `Birthday` parse of `DD.MM.YYYY` and its `%d.%m.%Y` rendering.
- `Schedule` (`schedule.dfy`) covers the date logic of `get_upcoming_birthdays`, one record
  at a time, and the accumulation of the loop over the book.
- `Contacts` (`contacts.dfy`) covers the two mutable classes:
  - `Record`: phones are object references compared by identity, as Python does for
    classes without `__eq__`;
  - `AddressBook`: a map from name to record, plus the key order Python iterates in.
- `Bot` (`bot.dfy`) covers the command handlers, the `input_error` decorator's
  exception-to-reply mapping and the `validate_phone` format check.

The current date is a parameter of `UpcomingBirthdays` rather than a clock reading. A
handler's effect on the book is stated on `AddressBook.Cards()`, which maps each name to its
phone strings and its birthday. `AddContactSpec` and `AddBirthdayCards` give that effect as
functions of the previous cards.

Some behaviour of the code is easy to miss; the model keeps it as written:

- Phones match by object identity, not by string equality. A phone given as a string to
  `remove_phone`, `edit_phone` or `find_phone` is a new object, and it matches nothing.
- `update_contact` and `add_birthday` reply "Give me name and phone please." for an unknown
  name, not "Contact not found.", because they raise `ValueError`.
- `Phone` counts digit characters but stores the original string; nothing is stripped.
- `add_contact` stores a new record before the phone is validated. An invalid phone
  therefore leaves a contact without phones.

## Model

| member | source | states |
|---|---|---|
| Calendar.DaysInMonth | Main.py:112 | a month has 28 to 31 days, and 29 exactly for February of a leap year |
| Calendar.Weekday | Main.py:120-122 | `weekday()` is always between 0 (Monday) and 6 (Sunday) |
| Calendar.AddDays | Main.py:121-123 | `date + timedelta(days=n)` succeeds exactly when the result is not past 9999-12-31; the result is then a valid date `n` ordinals later, and otherwise the error is OverflowError |
| Calendar.DaysBeforeMonthTable | Main.py:117 | the month-by-month day sums are the fixed table 0, 31, 59, …, 334, plus one after February in a leap year |
| Calendar.DaysBeforeYearIsFormula | Main.py:117 | counting the days of the earlier years one by one agrees with the closed form `365p + p/4 - p/100 + p/400` |
| Calendar.ToOrdinal | Main.py:117 | `toordinal()` of a valid date lies after the days of all earlier years and within the days of its own year |
| Calendar.ToOrdinalIsFormula | Main.py:117 | the day-by-day ordinal equals Python's closed form: days before the year, plus the month table entry (one more after February in a leap year), plus the day |
| Calendar.OrdinalOrder | Main.py:114 | the `<` comparison of dates agrees with the order of their ordinals, and equal ordinals mean the same date |
| Calendar.OrdinalRange | Main.py:117 | every valid date has an ordinal from 1 to that of 9999-12-31, and only that date reaches the top |
| Calendar.NextDayOrdinal | Main.py:121-123 | the day after a valid date before 9999-12-31 is valid and one ordinal later |
| Calendar.NextDayWeekday | Main.py:120-123 | the weekday advances by one, modulo 7, from a day to the next |
| Calendar.LastDateIsFriday | Main.py:120-123 | 9999-12-31 is a Friday, so no Saturday or Sunday is too close to the end to be moved to Monday |
| Fields.Digits | Main.py:37 | the digit string holds only digits and is no longer than the input |
| Fields.DigitsCounts | Main.py:37 | the digit string keeps every digit of the input, as often as it occurs, and nothing else |
| Fields.DigitsOfDigitString | Main.py:37 | an all-digit string is its own digit string |
| Fields.ValidatePhone | Main.py:33-40 | validation succeeds exactly when the string has ten digit characters; the string is returned unchanged, and otherwise the error is ValueError |
| Fields.Phone.constructor | Main.py:29-31 | a phone keeps the validated string as its value |
| Fields.Phone.Create | Main.py:29-31 | `Phone(s)` is a new valid object holding `s` exactly when `s` validates, and ValueError otherwise |
| Fields.AsPhone | Main.py:49 | a Phone argument is used as it is; a string becomes a new Phone or raises ValueError |
| Fields.FormatDate | Main.py:81 | `%d.%m.%Y` output is a `DD.MM.YYYY` string whose fields are the date's day, month and year |
| Fields.ParseBirthday | Main.py:20-27 | parsing succeeds exactly for a `DD.MM.YYYY` string naming a real date, and the error is ValueError otherwise; a parsed string formats back to itself |
| Fields.FormatOfDateText | Main.py:24-27 | a zero-padded date string is the rendering of the numbers written in it |
| Fields.FormatThenParse | Main.py:24 | parsing the rendering of a valid date gives that date back |
| Fields.LeapDayParsing | Main.py:23-27 | `29.02.2023` is rejected with ValueError and `29.02.2024` gives 29 February 2024 |
| Fields.AsBirthday | Main.py:77 | a Birthday argument is used as it is; a string is parsed |
| Schedule.ReplaceYear | Main.py:112 | `replace(year=y)` keeps day and month, and raises ValueError when that day does not exist in year `y` |
| Schedule.NextOccurrence | Main.py:112-115 | the next occurrence has the birthday's day and month, is not before today and falls in this year or the next; it fails, with ValueError, exactly when the day does not exist in the current year (29 February in a common year), or when it has passed and does not exist in the next year (29 February again, or any date once the next year would be 10000) |
| Schedule.NextOccurrenceIsEarliest | Main.py:112-115 | no date on or after today with the same day and month comes before the next occurrence |
| Schedule.ShiftArithmetic | Main.py:120-123 | shifting by 2 from a Saturday or by 1 from a Sunday reaches a weekday within the date range, and passes only weekend days |
| Schedule.WeekendShift | Main.py:119-123 | the moved date is valid, a weekday, 0 to 2 days later, equal to the original on weekdays, and only weekend days are skipped |
| Schedule.Congratulation | Main.py:111-123 | a greeting is produced exactly when the next occurrence is 0 to 7 days away; it is on a weekday, 0 to 2 days after the occurrence, 0 to 9 days after today, and on the occurrence itself when that is a weekday; every day it skips is a Saturday or Sunday, so a Saturday moves two days and a Sunday one day, to the Monday |
| Schedule.Step | Main.py:107-128 | a record without a birthday is skipped; otherwise the record fails exactly when its next occurrence does, and it yields a greeting exactly when it is in the window; the greeting carries its name and a date string that parses back to the congratulation date |
| Schedule.Collect | Main.py:105-129 | the loop's result fails only with the error of some step, and it never holds more entries than there are steps |
| Schedule.CollectFails | Main.py:107-129 | the loop fails exactly when some step fails |
| Schedule.CollectExact | Main.py:107-129 | every collected greeting comes from a step, and every step's greeting is collected |
| Schedule.CollectPrefix | Main.py:107-129 | the greetings of earlier records come first: collecting a prefix gives a prefix of the result |
| Schedule.CollectNext | Main.py:125-128 | one more successful step appends its greeting, if any, to what was collected before |
| Schedule.CollectStopsAt | Main.py:107-115 | the first failing record ends the whole call with its error |
| Schedule.UpcomingOf | Main.py:103-129 | `get_upcoming_birthdays` over the records in book order, with today as a parameter: it raises only ValueError, and it never returns more greetings than there are records |
| Schedule.UpcomingFails | Main.py:107-115 | `get_upcoming_birthdays` raises, always ValueError, exactly when some record's birthday cannot be moved into the year it needs |
| Schedule.UpcomingExact | Main.py:107-129 | on success, every greeting comes from a record in the 0-to-7-day window, and every such record has its greeting in the result |
| Schedule.SaturdayBirthdayMovesToMonday | Main.py:117-123 | a birthday on Saturday 15 June 2024, seen on 10 June, is greeted on Monday 17 June |
| Schedule.BirthdayAcrossNewYear | Main.py:112-118 | on 30 December 2023 a 2 January birthday moves to 2024 and is greeted on 2 January 2024 |
| Schedule.LeapDayBirthdayInCommonYear | Main.py:112 | a 29 February birthday raises ValueError when the current year is 2023 |
| Contacts.FirstIndex | Main.py:63-66 | the first position holding the same object, or the length when there is none |
| Contacts.RemoveFirst | Main.py:56 | `list.remove` drops the first occurrence and no other: the elements before it and after it stay, in order, and the multiset loses exactly one copy |
| Contacts.AddThenRemove | Main.py:48-58 | appending a phone that was not in the list and then removing it restores the list |
| Contacts.ReplaceKeepsValid | Main.py:65 | replacing one entry by a valid phone keeps every entry valid |
| Contacts.Values | Main.py:82 | the value strings are the phones' values, position by position |
| Contacts.ValuesAppend | Main.py:50 | appending a phone appends its value to the value strings |
| Contacts.Join | Main.py:176 | `sep.join(xs)`, also used by `__str__`, of a non-empty list begins with its first item |
| Contacts.JoinEndsWith | Main.py:176 | `sep.join(xs)` of a non-empty list ends with its last item |
| Contacts.JoinAppend | Main.py:176 | joining one more item appends the separator and that item, so `sep.join` is the items in order with the separator between each pair |
| Contacts.JoinIsEmpty | Main.py:176 | with the separator `"; "`, the joined text is empty only for no items or one empty item |
| Contacts.Record.constructor | Main.py:43-46 | a new record has its name, no phones and no birthday |
| Contacts.Record.AddPhone | Main.py:48-51 | exactly one phone is appended at the end, duplicates allowed, and returned; an invalid string raises ValueError and changes nothing |
| Contacts.Record.RemovePhone | Main.py:53-58 | true exactly when the argument is a Phone object in the list, which then loses its first occurrence; a string never matches and leaves the list as it was |
| Contacts.Record.EditPhone | Main.py:60-67 | both phones are built before the scan; true exactly when the old argument is a Phone object in the list, and then only its first position is replaced, by the given Phone object or by a new one built from a string, and the length is kept; otherwise the record is unchanged |
| Contacts.Record.FindPhone | Main.py:69-74 | the phone is found exactly when the argument is a Phone object in the list, and a string finds nothing |
| Contacts.Record.AddBirthday | Main.py:76-78 | a parsable birthday replaces any earlier one; a bad string raises ValueError and leaves the birthday as it was |
| Contacts.Record.BirthdayText | Main.py:81 | `-` without a birthday, otherwise a text that parses back to the birthday |
| Contacts.RenderShape | Main.py:80-83 | the rendering starts with `Contact name: ` and the name, and ends with `, birthday: ` and the birthday text |
| Contacts.RemoveFirstDistinct | Main.py:97-101 | deleting a key keeps the key order free of repetitions and drops exactly that key |
| Contacts.EntriesOf | Main.py:107-111 | the rows read by the loop are the records' names and birthdays, in key order |
| Contacts.AddressBook.constructor | Main.py:85 | a new book is empty |
| Contacts.AddressBook.AddRecord | Main.py:87-91 | the record is stored under its name, replacing any earlier record of that name; a new name goes to the end of the order |
| Contacts.AddressBook.Find | Main.py:93-94 | exact-key lookup: a record exactly when the name is a key, and it is the record stored under it |
| Contacts.AddressBook.Delete | Main.py:97-101 | true exactly when the name was a key; only that key is removed |
| Contacts.AddressBook.Entries | Main.py:107 | one row per record, in book order, each with a valid birthday if it has one |
| Contacts.AddressBook.UpcomingBirthdays | Main.py:103-129 | the loop over the records gives the result of the record-by-record specification, so the properties of `UpcomingFails` and `UpcomingExact` hold for it |
| Bot.Caught | Main.py:136-141 | ValueError, KeyError and IndexError map to their three replies; any other exception is not caught |
| Bot.InputError | Main.py:132-142 | a normal result passes through, a caught exception becomes its reply, and any other exception propagates |
| Bot.ValidateUaPhone | Main.py:162-168 | accepted exactly when the input is all digits and is `0` plus nine digits or `380` plus nine digits |
| Bot.UaPhoneAsPhone | Main.py:162-168 | of the numbers `validate_phone` accepts, `Phone` takes exactly the ten-digit ones |
| Bot.AddContactSpec | Main.py:150-160 | fewer than two arguments change nothing; otherwise the name is in the book afterwards, other names keep their cards, and a new name starts with no birthday; an empty phone only creates the card, a valid phone is appended to the card's earlier phones (none for a new name) with the reply `Contact updated.` for a known name and `Contact added.` for a new one, and an invalid phone leaves the phones as they were and replies with the argument message |
| Bot.AddContactPartialChange | Main.py:154-159 | for a new name with an invalid phone, the reply is the argument message and a record without phones stays in the book |
| Bot.FindOrCreate | Main.py:152-157 | the stored record is found, or a new empty one is stored and appended to the order |
| Bot.AddStoredPhone | Main.py:158-159 | adding a phone to a stored record appends its string to that name's card only |
| Bot.AddContact | Main.py:149-160 | the reply and the new cards are those of `AddContactSpec`, and a new name goes to the end of the order |
| Bot.UpdateContactReply | Main.py:184-193 | wrong argument count gives the argument message; a badly formatted new phone gives the format message; the reply is silent exactly for a known name, a valid old phone and a ten-digit new phone; every other reply after a passed format check, an unknown name included, is the argument message |
| Bot.EditStoredPhone | Main.py:192 | `edit_phone` with two strings never edits; it raises ValueError exactly when one of the strings is not a valid phone |
| Bot.UpdateContact | Main.py:183-193 | the reply is `UpdateContactReply`, and every contact's phones and birthday stay as they were |
| Bot.StoredPhoneText | Main.py:176 | a valid phone is at least ten characters long and is never the text `No phones.` |
| Bot.StoredPhonesText | Main.py:176 | a stored record's joined phones are empty exactly when it has no phones, and never equal `No phones.` otherwise |
| Bot.GetContactPhone | Main.py:170-176 | no arguments give `Enter user name.`; an unknown name gives `Contact not found.`; `No phones.` comes exactly when the contact has no phones, and otherwise the reply is the phones joined by `; ` |
| Bot.AddBirthdayCards | Main.py:196-202 | only the named card's birthday can change, and when it changes it renders back to the given text |
| Bot.SetStoredBirthday | Main.py:201 | setting a stored record's birthday changes that name's card only |
| Bot.AddBirthday | Main.py:195-202 | the new cards are `AddBirthdayCards`; the reply is the record when a known name gets a parsable date, and the argument message otherwise |
| Bot.TwelveDigitNewPhone | Main.py:184-192 | a twelve-digit `380…` number passes the format check and is then refused by `Phone`, so the reply is the argument message |

## Left out

- The `main` loop, `print_all_contacts` and `show_birthday` (Main.py:178-181, 204-249): they are console input and output.
- `parse_input` (Main.py:144-147): it splits the input line on Unicode whitespace, and it crashes on an empty line outside any handler.
- Contacts.Record.Render: it has no contract of its own. `RenderShape` states how its text begins and ends, but the phone part in the middle is given only by its definition.
- `datetime.datetime.today()` (Main.py:104): the current date is the `today` parameter of `UpcomingBirthdays`.
- The `isinstance` checks that raise `TypeError` (Main.py:35-36, 88-89): Dafny's types rule out the wrong argument types.
- `Field.__str__` and the `Name` wrapper: a record's name is a plain string.
- The time part of the `datetime` that `Birthday` stores: it is always midnight, and only the date is kept.
- Fields.ParseBirthday: only the zero-padded `DD.MM.YYYY` form is modelled. `strptime` also accepts a one-digit or space-padded day or month, such as `1.2.2000`, and the model rejects those strings.
- Fields.FormatDate: years below 1000 are written with four digits. Some C libraries do not pad `%Y`.
- Fields.Digits: only the ASCII digits `0`–`9` count as digits. Python's `isdigit` and `\d` also accept other Unicode digits.
- Bot.ValidateUaPhone: only ASCII digits count, for the same reason.
- Commands whose result the loop prints or ignores: only the handler's return value is modelled, not what `main` does with it.

=== FILE: bot.dfy ===
/**
 * The command handlers `add_contact`, `update_contact`, `get_contact_phone` and
 * `add_birthday`, the phone format check `validate_phone` they use, and the `input_error`
 * decorator that turns the exceptions they raise into fixed replies.
 */
module Bot {
  import opened Errors
  import opened Calendar
  import opened Fields
  import opened Contacts

  const ArgumentsMessage := "Give me name and phone please."
  const NotFoundMessage := "Contact not found."
  const NameMessage := "Enter user name."
  const InvalidFormatMessage := "Invalid phone format."
  const NoPhonesMessage := "No phones."
  const AddedMessage := "Contact added."
  const UpdatedMessage := "Contact updated."

  /** What a handler returns: a string, `None`, or (for `add_birthday`) the record. */
  datatype Reply = Say(text: string) | Silent | Returned(record: Record)

  /** The reply `input_error` gives for an exception it catches; None for one it lets through. */
  function Caught(e: Exception): (m: Option<string>)
    ensures e == ValueError ==> m == Some(ArgumentsMessage)
    ensures e == KeyError ==> m == Some(NotFoundMessage)
    ensures e == IndexError ==> m == Some(NameMessage)
    ensures e == OverflowError ==> m == None
  {
    match e
    case ValueError => Some(ArgumentsMessage)
    case KeyError => Some(NotFoundMessage)
    case IndexError => Some(NameMessage)
    case OverflowError => None
  }

  /** `input_error`: a caught exception becomes its reply; any other outcome passes through. */
  function InputError(r: Result<Reply>): (out: Result<Reply>)
    ensures r.Ok? ==> out == r
    ensures r.Err? && Caught(r.error).Some? ==> out == Ok(Say(Caught(r.error).value))
    ensures r.Err? && Caught(r.error).None? ==> out == r
  {
    match r
    case Ok(_) => r
    case Err(e) =>
      match Caught(e)
      case Some(m) => Ok(Say(m))
      case None => r
  }

  // ---------------------------------------------------------------------------
  // validate_phone

  /** `str.isdigit()`: at least one character, and all of them digits. */
  predicate IsDigitString(s: string) {
    |s| > 0 && AllDigits(s)
  }

  /** `\d{9}$`: nine digits, then the end of the string or a final newline before it. */
  predicate NineDigitsToEnd(t: string) {
    (|t| == 9 && AllDigits(t)) || (|t| == 10 && AllDigits(t[..9]) && t[9] == '\n')
  }

  /** `re.match(r'^(?:\+?380|0)\d{9}$', s)`. */
  predicate MatchesUaSimple(s: string) {
    (|s| >= 4 && s[..4] == "+380" && NineDigitsToEnd(s[4..]))
    || (|s| >= 3 && s[..3] == "380" && NineDigitsToEnd(s[3..]))
    || (|s| >= 1 && s[0] == '0' && NineDigitsToEnd(s[1..]))
  }

  /**
   * `validate_phone`: all digits, and either `0` and nine more digits or `380` and nine
   * more digits. The `+` and trailing-newline forms of the pattern can never pass the digit test.
   */
  function ValidateUaPhone(phone: string): (ok: bool)
    ensures ok <==> AllDigits(phone) && ((|phone| == 10 && phone[0] == '0') || (|phone| == 12 && phone[..3] == "380"))
  {
    if !IsDigitString(phone) then false
    else if !MatchesUaSimple(phone) then false
    else true
  }

  /**
   * Of the numbers `validate_phone` accepts, `Phone` takes exactly the ten-digit ones:
   * a twelve-digit `380...` number passes the first check and then fails the second.
   */
  lemma UaPhoneAsPhone(s: string)
    requires ValidateUaPhone(s)
    ensures ValidatePhone(s).Ok? <==> |s| == 10
  {
    DigitsOfDigitString(s);
  }

  // ---------------------------------------------------------------------------
  // add_contact

  /**
   * The outcome of `add_contact` on the book's values: the new book and the reply. For a
   * new name the empty record is stored before the phone is checked, so an invalid phone
   * leaves that record behind.
   */
  function AddContactSpec(cards: map<string, Card>, args: seq<string>): (r: (map<string, Card>, Reply))
    ensures forall k :: k in r.0 <==> k in cards || (|args| >= 2 && k == args[0])
    ensures forall k :: k in cards && (|args| < 2 || k != args[0]) ==> r.0[k] == cards[k]
    ensures |args| >= 2 && args[0] in cards ==> r.0[args[0]].birthday == cards[args[0]].birthday
    ensures |args| >= 2 && args[0] !in cards ==> r.0[args[0]].birthday == None
    ensures |args| < 2 ==> r == (cards, Say(ArgumentsMessage))
    ensures |args| >= 2 && args[1] == "" ==>
      r.0[args[0]].phones == (if args[0] in cards then cards[args[0]].phones else [])
      && r.1 == Say(if args[0] in cards then UpdatedMessage else AddedMessage)
    ensures |args| >= 2 && args[1] != "" && ValidatePhone(args[1]).Ok? ==>
      r.0[args[0]].phones == (if args[0] in cards then cards[args[0]].phones else []) + [args[1]]
      && r.1 == Say(if args[0] in cards then UpdatedMessage else AddedMessage)
    ensures |args| >= 2 && args[1] != "" && ValidatePhone(args[1]).Err? ==>
      r.0[args[0]].phones == (if args[0] in cards then cards[args[0]].phones else [])
      && r.1 == Say(ArgumentsMessage)
  {
    if |args| < 2 then (cards, Say(ArgumentsMessage))
    else
      var name, phone := args[0], args[1];
      var existed := name in cards;
      var start := if existed then cards[name] else Card([], None);
      var inserted := cards[name := start];
      var message := if existed then UpdatedMessage else AddedMessage;
      if phone == "" then (inserted, Say(message))
      else if ValidatePhone(phone).Ok? then
        (inserted[name := start.(phones := start.phones + [phone])], Say(message))
      else (inserted, Say(ArgumentsMessage))
  }

  /** An invalid phone for a new name: the reply is the argument message and a phoneless record stays. */
  lemma AddContactPartialChange(cards: map<string, Card>, name: string, phone: string)
    requires name !in cards && phone != "" && ValidatePhone(phone).Err?
    ensures AddContactSpec(cards, [name, phone]).1 == Say(ArgumentsMessage)
    ensures AddContactSpec(cards, [name, phone]).0 == cards[name := Card([], None)]
  {
  }

  lemma CardsAfterAdd(cards: map<string, Card>, book: AddressBook, record: Record)
    requires book.Valid() && record.name in book.data && book.data[record.name] == record
    requires record.phones == [] && record.birthday == None
    requires forall k :: k in cards <==> k in book.data && k != record.name
    requires forall k :: k in cards ==> cards[k] == Card(Values(book.data[k].phones), book.data[k].birthday)
    ensures book.Cards() == cards[record.name := Card([], None)]
  {
    assert book.Cards().Keys == cards.Keys + {record.name};
  }

  /** The first half of `add_contact`: the stored record for `name`, created and stored when missing. */
  method FindOrCreate(name: string, book: AddressBook) returns (record: Record, existed: bool)
    requires book.Valid()
    modifies book
    ensures book.Valid()
    ensures existed <==> name in old(book.data)
    ensures name in book.data && book.data[name] == record && record.name == name
    ensures existed ==> book.data == old(book.data)
    ensures !existed ==> fresh(record) && book.data == old(book.data)[name := record]
    ensures book.order == if existed then old(book.order) else old(book.order) + [name]
    ensures book.Cards() == old(book.Cards())[name := if existed then old(book.Cards())[name] else Card([], None)]
  {
    var found := book.Find(name);
    if found.Some? {
      record, existed := found.value, true;
      assert book.Cards()[name := book.Cards()[name]] == book.Cards();
    } else {
      record := new Record(name);
      existed := false;
      ghost var cards := book.Cards();
      book.AddRecord(record);
      forall k | k in cards
        ensures cards[k] == Card(Values(book.data[k].phones), book.data[k].birthday)
      {
        assert book.data[k] == old(book.data[k]);
      }
      CardsAfterAdd(cards, book, record);
    }
  }

  /** The second half: `record.add_phone(phone)` on a stored record, which changes that name's card only. */
  method AddStoredPhone(phone: string, record: Record, book: AddressBook) returns (added: Result<Phone>)
    requires book.Valid() && record.name in book.data && book.data[record.name] == record
    modifies record
    ensures book.Valid()
    ensures added.Ok? <==> ValidatePhone(phone).Ok?
    ensures added.Err? ==> added.error == ValueError && book.Cards() == old(book.Cards())
    ensures added.Ok? ==> book.Cards() == old(book.Cards())[record.name := old(book.Cards())[record.name].(phones := old(book.Cards())[record.name].phones + [phone])]
  {
    ghost var before := book.Cards();
    added := record.AddPhone(Text(phone));
    forall k | k in before && k != record.name
      ensures before[k] == Card(Values(book.data[k].phones), book.data[k].birthday)
    {
      assert book.data[k] != record;
    }
    CardsUpdate(book, before, record.name);
    if added.Ok? {
      ValuesAppend(old(record.phones), added.value);
    }
  }

  /** `add_contact` (decorated by `input_error`). */
  method AddContact(args: seq<string>, book: AddressBook) returns (r: Result<Reply>)
    requires book.Valid()
    modifies book, book.data.Values
    ensures book.Valid()
    ensures r == Ok(AddContactSpec(old(book.Cards()), args).1)
    ensures book.Cards() == AddContactSpec(old(book.Cards()), args).0
    ensures book.order == if |args| >= 2 && args[0] !in old(book.data) then old(book.order) + [args[0]] else old(book.order)
  {
    if |args| < 2 {
      return InputError(Err(ValueError));
    }
    var name, phone := args[0], args[1];
    var record, existed := FindOrCreate(name, book);
    var message := if existed then UpdatedMessage else AddedMessage;
    if phone != "" {
      var added := AddStoredPhone(phone, record, book);
      if added.Err? {
        return InputError(Err(added.error));
      }
    }
    return InputError(Ok(Say(message)));
  }

  // ---------------------------------------------------------------------------
  // update_contact

  /**
   * The reply of `update_contact`, which depends only on the arguments and the names in the
   * book: the old phone arrives as a string, becomes a new Phone object and so never matches
   * a stored phone, and no edit ever happens.
   */
  function UpdateContactReply(names: set<string>, args: seq<string>): (r: Reply)
    ensures r.Say? || r.Silent?
    ensures |args| != 3 ==> r == Say(ArgumentsMessage)
    ensures |args| == 3 && !ValidateUaPhone(args[2]) ==> r == Say(InvalidFormatMessage)
    ensures r == Silent <==>
      |args| == 3 && ValidateUaPhone(args[2]) && |args[2]| == 10 && args[0] in names && ValidatePhone(args[1]).Ok?
    ensures |args| == 3 && ValidateUaPhone(args[2]) && r != Silent ==> r == Say(ArgumentsMessage)
    ensures r.Say? ==> r.text == ArgumentsMessage || r.text == InvalidFormatMessage
  {
    if |args| != 3 then Say(ArgumentsMessage)
    else
      var name, oldPhone, newPhone := args[0], args[1], args[2];
      if !ValidateUaPhone(newPhone) then Say(InvalidFormatMessage)
      else if name !in names then Say(ArgumentsMessage)
      else if ValidatePhone(oldPhone).Err? || ValidatePhone(newPhone).Err? then
        UaPhoneAsPhone(newPhone);
        Say(ArgumentsMessage)
      else
        UaPhoneAsPhone(newPhone);
        Silent
  }

  /**
   * `record.edit_phone(old_phone, new_phone)` on a stored record with two strings: both are
   * turned into new Phone objects, the old one matches nothing, and the book stays as it was.
   */
  method EditStoredPhone(oldPhone: string, newPhone: string, record: Record, book: AddressBook) returns (edited: Result<bool>)
    requires book.Valid() && record.name in book.data && book.data[record.name] == record
    modifies record
    ensures book.Valid() && book.Cards() == old(book.Cards())
    ensures edited.Ok? <==> ValidatePhone(oldPhone).Ok? && ValidatePhone(newPhone).Ok?
    ensures edited.Err? ==> edited.error == ValueError
    ensures edited != Ok(true)
  {
    edited := record.EditPhone(Text(oldPhone), Text(newPhone));
  }

  /** `update_contact` (decorated by `input_error`): it answers, but the book stays as it was. */
  method UpdateContact(args: seq<string>, book: AddressBook) returns (r: Result<Reply>)
    requires book.Valid()
    modifies book.data.Values
    ensures book.Valid() && book.Cards() == old(book.Cards())
    ensures r == Ok(UpdateContactReply(old(book.data).Keys, args))
  {
    if |args| != 3 {
      return InputError(Err(ValueError));
    }
    var name, oldPhone, newPhone := args[0], args[1], args[2];
    if !ValidateUaPhone(newPhone) {
      return InputError(Ok(Say(InvalidFormatMessage)));
    }
    var found := book.Find(name);
    if found.None? {
      return InputError(Err(ValueError));
    }
    var edited := EditStoredPhone(oldPhone, newPhone, found.value, book);
    UaPhoneAsPhone(newPhone);
    if edited.Err? {
      return InputError(Err(edited.error));
    }
    return InputError(Ok(Silent));
  }

  // ---------------------------------------------------------------------------
  // get_contact_phone

  /** A valid phone has at least ten characters and is not the fallback text. */
  lemma StoredPhoneText(p: Phone)
    requires p.Valid()
    ensures |p.value| >= 10 && p.value != NoPhonesMessage
  {
    assert ValidatePhone(NoPhonesMessage).Err?;
  }

  /** For a stored record the joined list is empty, and then replaced by the fallback, exactly when it has no phones. */
  lemma StoredPhonesText(record: Record)
    requires record.Valid()
    ensures Join("; ", Values(record.phones)) == "" <==> record.phones == []
    ensures record.phones != [] ==> Join("; ", Values(record.phones)) != NoPhonesMessage
  {
    var xs := Values(record.phones);
    JoinIsEmpty("; ", xs);
    if record.phones != [] {
      assert record.phones[0] in record.phones;
      StoredPhoneText(record.phones[0]);
    }
  }

  /** `get_contact_phone` (decorated by `input_error`). */
  function GetContactPhone(args: seq<string>, book: AddressBook): (r: Result<Reply>)
    requires book.Valid()
    reads book, book.data.Values
    ensures r.Ok? && r.value.Say?
    ensures |args| == 0 ==> r == Ok(Say(NameMessage))
    ensures |args| > 0 && args[0] !in book.data ==> r == Ok(Say(NotFoundMessage))
    ensures |args| > 0 && args[0] in book.data ==>
      (r == Ok(Say(NoPhonesMessage)) <==> book.data[args[0]].phones == [])
      && (book.data[args[0]].phones != [] ==> r == Ok(Say(Join("; ", Values(book.data[args[0]].phones)))))
  {
    if |args| == 0 then InputError(Err(IndexError))
    else
      match book.Find(args[0])
      case None => InputError(Ok(Say(NotFoundMessage)))
      case Some(record) =>
        var joined := Join("; ", Values(record.phones));
        StoredPhonesText(record);
        InputError(Ok(Say(if joined == "" then NoPhonesMessage else joined)))
  }

  // ---------------------------------------------------------------------------
  // add_birthday

  /** Whether `add_birthday` sets a birthday: two arguments, a known name and a parsable date. */
  predicate SetsBirthday(names: set<string>, args: seq<string>) {
    |args| == 2 && args[0] in names && ParseBirthday(args[1]).Ok?
  }

  /** The book's values after `add_birthday`: only the named card's birthday can change. */
  function AddBirthdayCards(cards: map<string, Card>, args: seq<string>): (r: map<string, Card>)
    ensures r.Keys == cards.Keys
    ensures forall k :: k in cards && (!SetsBirthday(cards.Keys, args) || k != args[0]) ==> r[k] == cards[k]
    ensures SetsBirthday(cards.Keys, args) ==>
      r[args[0]].phones == cards[args[0]].phones && r[args[0]].birthday.Some?
      && IsValid(r[args[0]].birthday.value) && FormatDate(r[args[0]].birthday.value) == args[1]
  {
    if SetsBirthday(cards.Keys, args) then
      cards[args[0] := cards[args[0]].(birthday := Some(ParseBirthday(args[1]).value))]
    else cards
  }

  /** `record.add_birthday(text)` on a stored record, which changes that name's card only. */
  method SetStoredBirthday(text: string, record: Record, book: AddressBook) returns (parsed: Result<Date>)
    requires book.Valid() && record.name in book.data && book.data[record.name] == record
    modifies record
    ensures book.Valid()
    ensures parsed == ParseBirthday(text)
    ensures parsed.Err? ==> book.Cards() == old(book.Cards())
    ensures parsed.Ok? ==> book.Cards() == old(book.Cards())[record.name := old(book.Cards())[record.name].(birthday := Some(parsed.value))]
  {
    ghost var phones := record.phones;
    ghost var before := book.Cards();
    parsed := record.AddBirthday(BirthdayText(text));
    forall k | k in before && k != record.name
      ensures before[k] == Card(Values(book.data[k].phones), book.data[k].birthday)
    {
      assert book.data[k] != record;
    }
    CardsUpdate(book, before, record.name);
  }

  /** `add_birthday` (decorated by `input_error`): the record on success, the argument message otherwise. */
  method AddBirthday(args: seq<string>, book: AddressBook) returns (r: Result<Reply>)
    requires book.Valid()
    modifies book.data.Values
    ensures book.Valid() && book.Cards() == AddBirthdayCards(old(book.Cards()), args)
    ensures SetsBirthday(old(book.data).Keys, args) ==> r == Ok(Returned(book.data[args[0]]))
    ensures !SetsBirthday(old(book.data).Keys, args) ==> r == Ok(Say(ArgumentsMessage))
  {
    if |args| != 2 {
      return InputError(Err(ValueError));
    }
    var name, text := args[0], args[1];
    var found := book.Find(name);
    if found.None? {
      return InputError(Err(ValueError));
    }
    var record := found.value;
    var parsed := SetStoredBirthday(text, record, book);
    if parsed.Err? {
      return InputError(Err(parsed.error));
    }
    return InputError(Ok(Returned(record)));
  }

  /**
   * A twelve-digit `380...` number passes the format check of `update_contact` and is then
   * refused by `Phone`, so the reply is the argument message, not the format message.
   */
  lemma TwelveDigitNewPhone(names: set<string>, name: string, oldPhone: string, newPhone: string)
    requires |newPhone| == 12 && AllDigits(newPhone) && newPhone[..3] == "380"
    ensures ValidateUaPhone(newPhone) && ValidatePhone(newPhone).Err?
    ensures UpdateContactReply(names, [name, oldPhone, newPhone]) == Say(ArgumentsMessage)
  {
    UaPhoneAsPhone(newPhone);
  }
}

=== FILE: calendar.dfy ===
/**
 * Proleptic Gregorian dates as Python's `datetime.date` handles them: years 1 to 9999,
 * the ordinal count in which 0001-01-01 is day 1, weekdays with Monday as 0, and
 * adding whole days with the overflow check of `date + timedelta`.
 */
module Calendar {
  import opened Errors

  const MinYear := 1
  const MaxYear := 9999

  datatype Date = Date(year: int, month: int, day: int)

  /** The largest date Python represents (`date.max`). */
  const LastDate := Date(MaxYear, 12, 31)
  /** Its ordinal, `date.max.toordinal()`. */
  const MaxOrdinal := 3652059

  predicate IsLeap(y: int) {
    y % 4 == 0 && (y % 100 != 0 || y % 400 == 0)
  }

  function DaysInMonth(y: int, m: int): (n: int)
    requires 1 <= m <= 12
    ensures 28 <= n <= 31
    ensures n == 29 <==> m == 2 && IsLeap(y)
  {
    if m == 2 then (if IsLeap(y) then 29 else 28)
    else if m == 4 || m == 6 || m == 9 || m == 11 then 30
    else 31
  }

  function DaysInYear(y: int): int {
    if IsLeap(y) then 366 else 365
  }

  /** A date `datetime.date` accepts: the year in range and the day within its month. */
  predicate IsValid(d: Date) {
    MinYear <= d.year <= MaxYear && 1 <= d.month <= 12 && 1 <= d.day <= DaysInMonth(d.year, d.month)
  }

  /** Chronological order, which for dates is the lexicographic order of (year, month, day). */
  predicate Before(a: Date, b: Date) {
    a.year < b.year || (a.year == b.year && (a.month < b.month || (a.month == b.month && a.day < b.day)))
  }

  /** Days in the years before year `y`, counted year by year. */
  function DaysBeforeYear(y: int): (n: int)
    requires y >= 1
    ensures n >= 365 * (y - 1)
  {
    if y == 1 then 0 else DaysBeforeYear(y - 1) + DaysInYear(y - 1)
  }

  /** The closed form `_days_before_year` that `date.toordinal()` evaluates. */
  function DaysBeforeYearFormula(y: int): int
    requires y >= 1
  {
    var p := y - 1;
    p * 365 + p / 4 - p / 100 + p / 400
  }

  /** Days in the months of year `y` before month `m`, summed month by month. */
  function DaysBeforeMonth(y: int, m: int): (n: int)
    requires 1 <= m <= 12
    ensures n >= 28 * (m - 1)
  {
    if m == 1 then 0 else DaysBeforeMonth(y, m - 1) + DaysInMonth(y, m - 1)
  }

  /** `date.toordinal()`, counted day by day: the days before the year, before the month, and the day itself. */
  function ToOrdinal(d: Date): (o: int)
    requires IsValid(d)
    ensures DaysBeforeYear(d.year) < o <= DaysBeforeYear(d.year) + DaysInYear(d.year)
  {
    DaysBeforeMonthWithinYear(d.year, d.month);
    DaysBeforeYear(d.year) + DaysBeforeMonth(d.year, d.month) + d.day
  }

  /** `date.weekday()`: Monday is 0 and Sunday is 6; day 1 of the ordinal count is a Monday. */
  function Weekday(d: Date): (w: int)
    requires IsValid(d)
    ensures 0 <= w < 7
  {
    WeekdayOf(ToOrdinal(d))
  }

  /** The weekday of the day with ordinal `o`. */
  function WeekdayOf(o: int): int {
    (o + 6) % 7
  }

  /** The calendar day after `d`. */
  function NextDay(d: Date): Date
    requires 1 <= d.month <= 12
  {
    if d.day < DaysInMonth(d.year, d.month) then Date(d.year, d.month, d.day + 1)
    else if d.month < 12 then Date(d.year, d.month + 1, 1)
    else Date(d.year + 1, 1, 1)
  }

  /** `d + timedelta(days=n)`: OverflowError when the result would pass `date.max`. */
  function AddDays(d: Date, n: nat): (r: Result<Date>)
    requires IsValid(d)
    ensures r.Ok? <==> ToOrdinal(d) + n <= MaxOrdinal
    ensures r.Err? ==> r.error == OverflowError
    ensures r.Ok? ==> IsValid(r.value) && ToOrdinal(r.value) == ToOrdinal(d) + n
    decreases n
  {
    OrdinalRange(d);
    if n == 0 then Ok(d)
    else if d == LastDate then Err(OverflowError)
    else
      NextDayOrdinal(d);
      AddDays(NextDay(d), n - 1)
  }

  // ---------------------------------------------------------------------------
  // Ordinal arithmetic

  lemma DaysBeforeMonthStep(y: int, m: int)
    requires 1 <= m < 12
    ensures DaysBeforeMonth(y, m + 1) == DaysBeforeMonth(y, m) + DaysInMonth(y, m)
  {
  }

  /** The month-by-month sums are the table `_DAYS_BEFORE_MONTH`, plus one after February in a leap year. */
  lemma {:induction false} DaysBeforeMonthTable(y: int, m: int)
    requires 1 <= m <= 12
    ensures DaysBeforeMonth(y, m)
      == [0, 31, 59, 90, 120, 151, 181, 212, 243, 273, 304, 334][m - 1] + (if m > 2 && IsLeap(y) then 1 else 0)
  {
    if m > 1 {
      DaysBeforeMonthTable(y, m - 1);
    }
  }

  lemma DaysBeforeMonthLast(y: int)
    ensures DaysBeforeMonth(y, 12) + DaysInMonth(y, 12) == DaysInYear(y)
  {
    DaysBeforeMonthTable(y, 12);
  }

  lemma Quotient4Step(y: int)
    requires y >= 1
    ensures y / 4 == (y - 1) / 4 + (if y % 4 == 0 then 1 else 0)
  {
  }

  lemma Quotient100Step(y: int)
    requires y >= 1
    ensures y / 100 == (y - 1) / 100 + (if y % 100 == 0 then 1 else 0)
    ensures y % 100 == 0 ==> y % 4 == 0
  {
  }

  lemma Quotient400Step(y: int)
    requires y >= 1
    ensures y / 400 == (y - 1) / 400 + (if y % 400 == 0 then 1 else 0)
    ensures y % 400 == 0 ==> y % 100 == 0
  {
  }

  lemma FormulaStep(y: int)
    requires y >= 1
    ensures DaysBeforeYearFormula(y + 1) == DaysBeforeYearFormula(y) + DaysInYear(y)
  {
    Quotient4Step(y);
    Quotient100Step(y);
    Quotient400Step(y);
  }

  /** Counting the years one by one agrees with the closed form. */
  lemma {:induction false} DaysBeforeYearIsFormula(y: int)
    requires y >= 1
    ensures DaysBeforeYear(y) == DaysBeforeYearFormula(y)
    decreases y
  {
    if y > 1 {
      DaysBeforeYearIsFormula(y - 1);
      FormulaStep(y - 1);
    }
  }

  lemma DaysBeforeYearStep(y: int)
    requires y >= 1
    ensures DaysBeforeYear(y + 1) == DaysBeforeYear(y) + DaysInYear(y)
  {
  }

  lemma {:induction false} DaysBeforeYearGrows(a: int, b: int)
    requires 1 <= a < b
    ensures DaysBeforeYear(a) + DaysInYear(a) <= DaysBeforeYear(b)
    decreases b - a
  {
    DaysBeforeYearStep(a);
    if a + 1 < b {
      DaysBeforeYearGrows(a + 1, b);
    }
  }

  /** The day-by-day ordinal is the closed form Python evaluates, `_days_before_year(y) + _days_before_month(y, m) + d`. */
  lemma ToOrdinalIsFormula(d: Date)
    requires IsValid(d)
    ensures ToOrdinal(d) == DaysBeforeYearFormula(d.year)
      + [0, 31, 59, 90, 120, 151, 181, 212, 243, 273, 304, 334][d.month - 1]
      + (if d.month > 2 && IsLeap(d.year) then 1 else 0) + d.day
  {
    DaysBeforeYearIsFormula(d.year);
    DaysBeforeMonthTable(d.year, d.month);
  }

  lemma DaysBeforeMonthWithinYear(y: int, m: int)
    requires 1 <= m <= 12
    ensures DaysBeforeMonth(y, m) + DaysInMonth(y, m) <= DaysInYear(y)
  {
    DaysBeforeMonthLast(y);
    if m < 12 {
      DaysBeforeMonthGrows(y, m, 12);
    }
  }

  /** Months of one year occupy consecutive, non-overlapping ordinal ranges. */
  lemma {:induction false} DaysBeforeMonthGrows(y: int, a: int, b: int)
    requires 1 <= a < b <= 12
    ensures DaysBeforeMonth(y, a) + DaysInMonth(y, a) <= DaysBeforeMonth(y, b)
    decreases b - a
  {
    DaysBeforeMonthStep(y, a);
    if a + 1 < b {
      DaysBeforeMonthGrows(y, a + 1, b);
    }
  }

  lemma BeforeHasSmallerOrdinal(a: Date, b: Date)
    requires IsValid(a) && IsValid(b) && Before(a, b)
    ensures ToOrdinal(a) < ToOrdinal(b)
  {
    if a.year < b.year {
      DaysBeforeYearGrows(a.year, b.year);
    } else if a.month < b.month {
      DaysBeforeMonthGrows(a.year, a.month, b.month);
    }
  }

  /** Chronological order of valid dates is the order of their ordinals. */
  lemma OrdinalOrder(a: Date, b: Date)
    requires IsValid(a) && IsValid(b)
    ensures Before(a, b) <==> ToOrdinal(a) < ToOrdinal(b)
    ensures ToOrdinal(a) == ToOrdinal(b) <==> a == b
  {
    if Before(a, b) {
      BeforeHasSmallerOrdinal(a, b);
    } else if Before(b, a) {
      BeforeHasSmallerOrdinal(b, a);
    }
  }

  /** Every valid date has an ordinal between 1 and that of `date.max`. */
  lemma OrdinalRange(d: Date)
    requires IsValid(d)
    ensures 1 <= ToOrdinal(d) <= MaxOrdinal
    ensures ToOrdinal(d) == MaxOrdinal <==> d == LastDate
  {
    LastDateOrdinal();
    OrdinalOrder(d, LastDate);
  }

  /** The day after a valid date other than `date.max` is valid and one ordinal later. */
  lemma NextDayOrdinal(d: Date)
    requires IsValid(d) && d != LastDate
    ensures IsValid(NextDay(d))
    ensures ToOrdinal(NextDay(d)) == ToOrdinal(d) + 1
  {
    if d.day < DaysInMonth(d.year, d.month) {
    } else if d.month < 12 {
      DaysBeforeMonthStep(d.year, d.month);
    } else {
      DaysBeforeYearStep(d.year);
      DaysBeforeMonthLast(d.year);
    }
  }

  /** Weekdays advance by one, modulo 7, from one day to the next. */
  lemma NextDayWeekday(d: Date)
    requires IsValid(d) && d != LastDate
    ensures IsValid(NextDay(d)) && Weekday(NextDay(d)) == (Weekday(d) + 1) % 7
  {
    NextDayOrdinal(d);
    WeekdayStep(ToOrdinal(d));
  }

  lemma WeekdayStep(o: int)
    ensures (o + 1 + 6) % 7 == ((o + 6) % 7 + 1) % 7
  {
  }

  lemma LastDateOrdinal()
    ensures IsValid(LastDate) && ToOrdinal(LastDate) == MaxOrdinal
  {
    DaysBeforeYearIsFormula(MaxYear);
    DaysBeforeMonthTable(MaxYear, 12);
  }

  /** `date.max`, 9999-12-31, is a Friday. */
  lemma LastDateIsFriday()
    ensures IsValid(LastDate) && Weekday(LastDate) == 4
  {
    LastDateOrdinal();
  }
}

=== FILE: contacts.dfy ===
/**
 * A contact `Record` (a name, a list of Phone objects and an optional birthday) and the
 * `AddressBook`, a dictionary from name to Record that remembers insertion order.
 * Phones are matched by object identity, as Python's `==` and `list.remove` do for
 * objects that define no `__eq__`.
 */
module Contacts {
  import opened Errors
  import opened Calendar
  import opened Fields
  import opened Schedule

  // ---------------------------------------------------------------------------
  // The phone list, as a sequence of object references

  /** The position of the first element equal to `p` (for phones: the same object), or `|s|` when there is none. */
  function FirstIndex<T(==)>(s: seq<T>, p: T): (i: nat)
    ensures i <= |s|
    ensures i < |s| <==> p in s
    ensures i < |s| ==> s[i] == p
    ensures forall j :: 0 <= j < i ==> s[j] != p
  {
    if s == [] then 0
    else if s[0] == p then 0
    else 1 + FirstIndex(s[1..], p)
  }

  /** `list.remove(p)` on a list that holds `p`: the first occurrence goes, the rest stays in order. */
  function RemoveFirst<T(==)>(s: seq<T>, p: T): (r: seq<T>)
    requires p in s
    ensures |r| == |s| - 1
    ensures multiset(r) == multiset(s) - multiset{p}
    ensures forall q :: q in r ==> q in s
    ensures var i := FirstIndex(s, p); r[..i] == s[..i] && r[i..] == s[i + 1..]
  {
    var i := FirstIndex(s, p);
    assert s == s[..i] + [s[i]] + s[i + 1..];
    s[..i] + s[i + 1..]
  }

  /** Appending a phone that was not yet in the list and then removing it restores the list. */
  lemma AddThenRemove<T>(s: seq<T>, p: T)
    requires p !in s
    ensures RemoveFirst(s + [p], p) == s
  {
    assert FirstIndex(s + [p], p) == |s|;
    assert (s + [p])[..|s|] == s;
  }

  /** Replacing one entry by a valid phone keeps every entry valid. */
  lemma ReplaceKeepsValid(s: seq<Phone>, i: nat, p: Phone)
    requires i < |s| && (forall q :: q in s ==> q.Valid()) && p.Valid()
    ensures forall q :: q in s[i := p] ==> q.Valid()
  {
    forall q | q in s[i := p]
      ensures q.Valid()
    {
      var j :| 0 <= j < |s| && s[i := p][j] == q;
      if j != i {
        assert s[j] in s;
      }
    }
  }

  /** The strings held by a list of phones, `[p.value for p in phones]`. */
  function Values(s: seq<Phone>): (r: seq<string>)
    ensures |r| == |s|
    ensures forall i :: 0 <= i < |s| ==> r[i] == s[i].value
  {
    if s == [] then [] else [s[0].value] + Values(s[1..])
  }

  lemma ValuesAppend(s: seq<Phone>, p: Phone)
    ensures Values(s + [p]) == Values(s) + [p.value]
  {
  }

  /** `sep.join(xs)`: the items in order with `sep` between them; it begins with the first item. */
  function Join(sep: string, xs: seq<string>): (r: string)
    ensures xs != [] ==> xs[0] <= r
  {
    if xs == [] then ""
    else if |xs| == 1 then xs[0]
    else
      var rest := Join(sep, xs[1..]);
      assert xs[0] + sep + rest == xs[0] + (sep + rest);
      xs[0] + sep + rest
  }

  /** Joining two or more items is the first, the separator, and the join of the rest. */
  lemma JoinCons(sep: string, ys: seq<string>)
    requires |ys| >= 2
    ensures Join(sep, ys) == ys[0] + sep + Join(sep, ys[1..])
  {
  }

  lemma JoinPair(sep: string, a: string, x: string)
    ensures Join(sep, [a] + [x]) == a + sep + x
  {
    assert ([a] + [x])[1..] == [x];
  }

  /** Joining one more item adds the separator and that item at the end. */
  lemma {:induction false} JoinAppend(sep: string, xs: seq<string>, x: string)
    requires xs != []
    ensures Join(sep, xs + [x]) == Join(sep, xs) + sep + x
  {
    if |xs| == 1 {
      assert xs == [xs[0]];
      JoinPair(sep, xs[0], x);
    } else {
      var ys := xs + [x];
      assert ys[0] == xs[0] && ys[1..] == xs[1..] + [x];
      JoinAppend(sep, xs[1..], x);
      JoinCons(sep, ys);
      JoinCons(sep, xs);
      assert xs[0] + sep + (Join(sep, xs[1..]) + sep + x) == (xs[0] + sep + Join(sep, xs[1..])) + sep + x;
    }
  }

  /** The joined text ends with the last item. */
  lemma JoinEndsWith(sep: string, xs: seq<string>)
    requires xs != []
    ensures |xs[|xs| - 1]| <= |Join(sep, xs)|
    ensures Join(sep, xs)[|Join(sep, xs)| - |xs[|xs| - 1]|..] == xs[|xs| - 1]
  {
    var last := xs[|xs| - 1];
    if |xs| > 1 {
      var init := xs[..|xs| - 1];
      assert xs == init + [last];
      JoinAppend(sep, init, last);
    }
  }

  /** With a non-empty separator, the joined text is empty only for `[]` and `[""]`. */
  lemma JoinIsEmpty(sep: string, xs: seq<string>)
    requires sep != ""
    ensures Join(sep, xs) == "" <==> xs == [] || xs == [""]
  {
    if |xs| > 1 {
      assert |Join(sep, xs)| >= |sep|;
    }
  }

  // ---------------------------------------------------------------------------
  // Record

  /**
   * `after` is `before` with the first entry identical to `target` replaced by the phone
   * built from `arg`; every other entry stays where it was.
   */
  ghost predicate ReplacedFirst(before: seq<Phone>, after: seq<Phone>, target: Phone, arg: PhoneArg) {
    var i := FirstIndex(before, target);
    i < |before| && |after| == |before| && after == before[i := after[i]]
    && after[i].value == ArgValue(arg) && (arg.Instance? ==> after[i] == arg.phone)
  }

  class Record {
    const name: string
    var phones: seq<Phone>
    var birthday: Option<Date>

    /** Every phone was built by `Phone`, so it is valid, and a birthday is a real date. */
    ghost predicate Valid()
      reads this
    {
      (forall p :: p in phones ==> p.Valid())
      && (birthday.Some? ==> IsValid(birthday.value))
    }

    /** `Record(name)`: no phones and no birthday yet. */
    constructor (name: string)
      ensures this.name == name && phones == [] && birthday == None && Valid()
    {
      this.name := name;
      phones := [];
      birthday := None;
    }

    /** `add_phone`: appends exactly one entry at the end, duplicates allowed, and returns it. */
    method AddPhone(arg: PhoneArg) returns (r: Result<Phone>)
      requires Valid() && (arg.Instance? ==> arg.phone.Valid())
      modifies this
      ensures Valid() && birthday == old(birthday)
      ensures r.Ok? <==> Accepted(arg)
      ensures r.Err? ==> r.error == ValueError && phones == old(phones)
      ensures r.Ok? ==> phones == old(phones) + [r.value] && r.value.value == ArgValue(arg)
      ensures r.Ok? && arg.Instance? ==> r.value == arg.phone
      ensures r.Ok? && arg.Text? ==> fresh(r.value)
    {
      r := AsPhone(arg);
      if r.Ok? {
        phones := phones + [r.value];
      }
    }

    /**
     * `remove_phone`: removes the first entry identical to the argument. A string argument
     * becomes a new object, which matches nothing.
     */
    method RemovePhone(arg: PhoneArg) returns (r: Result<bool>)
      requires Valid()
      modifies this
      ensures Valid() && birthday == old(birthday)
      ensures r.Ok? <==> Accepted(arg)
      ensures r.Err? ==> r.error == ValueError
      ensures r == Ok(true) <==> arg.Instance? && arg.phone in old(phones)
      ensures r == Ok(true) ==> phones == RemoveFirst(old(phones), arg.phone)
      ensures r != Ok(true) ==> phones == old(phones)
    {
      var p := AsPhone(arg);
      if p.Err? {
        return Err(p.error);
      }
      if p.value in phones {
        phones := RemoveFirst(phones, p.value);
        return Ok(true);
      }
      return Ok(false);
    }

    /**
     * `edit_phone`: builds both phones before scanning, then replaces the first entry
     * identical to the old one. Length and every other entry stay as they were.
     */
    method EditPhone(oldArg: PhoneArg, newArg: PhoneArg) returns (r: Result<bool>)
      requires Valid() && (newArg.Instance? ==> newArg.phone.Valid())
      modifies this
      ensures Valid() && birthday == old(birthday)
      ensures r.Ok? <==> Accepted(oldArg) && Accepted(newArg)
      ensures r.Err? ==> r.error == ValueError
      ensures r == Ok(true) <==> Accepted(newArg) && oldArg.Instance? && oldArg.phone in old(phones)
      ensures r != Ok(true) ==> unchanged(this)
      ensures r == Ok(true) ==> ReplacedFirst(old(phones), phones, oldArg.phone, newArg)
      ensures r == Ok(true) && newArg.Text? ==> fresh(phones[FirstIndex(old(phones), oldArg.phone)])
    {
      var oldPhone := AsPhone(oldArg);
      if oldPhone.Err? {
        return Err(oldPhone.error);
      }
      var newPhone := AsPhone(newArg);
      if newPhone.Err? {
        return Err(newPhone.error);
      }
      var i := 0;
      while i < |phones| && phones[i] != oldPhone.value
        invariant 0 <= i <= |phones|
        invariant forall j :: 0 <= j < i ==> phones[j] != oldPhone.value
      {
        i := i + 1;
      }
      if i == |phones| {
        return Ok(false);
      }
      assert i == FirstIndex(phones, oldPhone.value);
      ReplaceKeepsValid(phones, i, newPhone.value);
      phones := phones[i := newPhone.value];
      return Ok(true);
    }

    /** `find_phone`: the first entry identical to the argument, or None. */
    method FindPhone(arg: PhoneArg) returns (r: Result<Option<Phone>>)
      ensures r.Ok? <==> Accepted(arg)
      ensures r.Err? ==> r.error == ValueError
      ensures r.Ok? ==> (r.value.Some? <==> arg.Instance? && arg.phone in phones)
      ensures r.Ok? && r.value.Some? ==> r.value.value == arg.phone
    {
      var p := AsPhone(arg);
      if p.Err? {
        return Err(p.error);
      }
      var i := 0;
      while i < |phones|
        invariant 0 <= i <= |phones|
        invariant forall j :: 0 <= j < i ==> phones[j] != p.value
      {
        if p.value == phones[i] {
          return Ok(Some(phones[i]));
        }
        i := i + 1;
      }
      return Ok(None);
    }

    /** `add_birthday`: replaces any earlier birthday, or raises ValueError and changes nothing. */
    method AddBirthday(arg: BirthdayArg) returns (r: Result<Date>)
      requires Valid() && (arg.BirthdayInstance? ==> IsValid(arg.date))
      modifies this
      ensures Valid() && phones == old(phones)
      ensures r == AsBirthday(arg)
      ensures r.Ok? ==> birthday == Some(r.value)
      ensures r.Err? ==> birthday == old(birthday)
    {
      r := AsBirthday(arg);
      if r.Ok? {
        birthday := Some(r.value);
      }
    }

    /** The birthday as `__str__` shows it: `%d.%m.%Y`, or `-` when there is none. */
    function BirthdayText(): (t: string)
      requires Valid()
      reads this
      ensures birthday.None? ==> t == "-"
      ensures birthday.Some? ==> ParseBirthday(t) == Ok(birthday.value)
    {
      match birthday
      case None => "-"
      case Some(d) => FormatThenParse(d); FormatDate(d)
    }

    /** `__str__`. */
    function Render(): (t: string)
      requires Valid()
      reads this
    {
      "Contact name: " + name + ", phones: " + Join("; ", Values(phones)) + ", birthday: " + BirthdayText()
    }
  }

  /** The rendering of a record starts with its name and ends with its birthday. */
  lemma RenderShape(r: Record)
    requires r.Valid()
    ensures var t := r.Render(); var pre := "Contact name: " + r.name; var post := ", birthday: " + r.BirthdayText();
      |pre| + |post| <= |t| && t[..|pre|] == pre && t[|t| - |post|..] == post
  {
    var pre := "Contact name: " + r.name;
    var mid := ", phones: " + Join("; ", Values(r.phones));
    var post := ", birthday: " + r.BirthdayText();
    assert r.Render() == pre + mid + post;
  }

  // ---------------------------------------------------------------------------
  // AddressBook

  /** No name occurs twice. */
  ghost predicate Distinct(ks: seq<string>) {
    forall i, j :: 0 <= i < j < |ks| ==> ks[i] != ks[j]
  }

  /** Dropping position `i`: every later element moves down by one. */
  lemma DropAt(ks: seq<string>, i: nat, r: seq<string>)
    requires i < |ks| && |r| == |ks| - 1 && r[..i] == ks[..i] && r[i..] == ks[i + 1..]
    ensures forall a :: 0 <= a < i ==> r[a] == ks[a]
    ensures forall a :: i <= a < |r| ==> r[a] == ks[a + 1]
  {
    forall a | 0 <= a < i
      ensures r[a] == ks[a]
    {
      assert r[..i][a] == ks[..i][a];
    }
    forall a | i <= a < |r|
      ensures r[a] == ks[a + 1]
    {
      assert r[i..][a - i] == ks[i + 1..][a - i];
    }
  }

  /** Dropping one position of a repetition-free sequence keeps it repetition-free and loses exactly that element. */
  lemma DropDistinct(ks: seq<string>, i: nat, r: seq<string>)
    requires Distinct(ks) && i < |ks| && |r| == |ks| - 1 && r[..i] == ks[..i] && r[i..] == ks[i + 1..]
    ensures Distinct(r)
    ensures forall x :: x in r <==> x in ks && x != ks[i]
  {
    DropAt(ks, i, r);
    forall a, b | 0 <= a < b < |r|
      ensures r[a] != r[b]
    {
      var a', b' := if a < i then a else a + 1, if b < i then b else b + 1;
      assert r[a] == ks[a'] && r[b] == ks[b'] && a' < b';
    }
    forall x | x in r
      ensures x in ks && x != ks[i]
    {
      var j :| 0 <= j < |r| && r[j] == x;
      var j' := if j < i then j else j + 1;
      assert ks[j'] == x && j' != i;
    }
    forall x | x in ks && x != ks[i]
      ensures x in r
    {
      var j :| 0 <= j < |ks| && ks[j] == x;
      assert j != i;
      assert r[if j < i then j else j - 1] == x;
    }
  }

  /** Removing an element keeps a sequence free of repetitions and drops exactly that element. */
  lemma RemoveFirstDistinct(ks: seq<string>, k: string)
    requires Distinct(ks) && k in ks
    ensures Distinct(RemoveFirst(ks, k))
    ensures forall x :: x in RemoveFirst(ks, k) <==> x in ks && x != k
  {
    var i := FirstIndex(ks, k);
    var r := RemoveFirst(ks, k);
    assert ks[i] == k;
    assert |r| == |ks| - 1 && r[..i] == ks[..i] && r[i..] == ks[i + 1..];
    DropDistinct(ks, i, r);
  }

  /** The cards of a book that agrees with `before` on every name but `name`. */
  lemma CardsUpdate(book: AddressBook, before: map<string, Card>, name: string)
    requires before.Keys == book.data.Keys && name in book.data
    requires forall k :: k in before && k != name ==> before[k] == Card(Values(book.data[k].phones), book.data[k].birthday)
    ensures book.Cards() == before[name := Card(Values(book.data[name].phones), book.data[name].birthday)]
  {
    assert book.Cards().Keys == before.Keys;
  }

  /** The records in the book, as the `(name, birthday)` rows `get_upcoming_birthdays` reads, in key order. */
  function EntriesOf(ks: seq<string>, d: map<string, Record>): (es: seq<Entry>)
    requires forall k :: k in ks ==> k in d
    reads d.Values
    ensures |es| == |ks|
    ensures forall i :: 0 <= i < |ks| ==> es[i] == Entry(d[ks[i]].name, d[ks[i]].birthday)
  {
    if ks == [] then [] else [Entry(d[ks[0]].name, d[ks[0]].birthday)] + EntriesOf(ks[1..], d)
  }

  /** What a record holds, as values: the phone strings in order and the birthday. */
  datatype Card = Card(phones: seq<string>, birthday: Option<Date>)

  /**
   * The address book: `data` is the dictionary and `order` its keys in insertion order,
   * the order in which Python iterates over `self.data.values()`.
   */
  class AddressBook {
    var order: seq<string>
    var data: map<string, Record>

    /** Keys are unique, `order` lists exactly the keys, and each record is stored under its own name. */
    ghost predicate Valid()
      reads this, data.Values
    {
      Keyed() && RecordsValid()
    }

    /** The part of `Valid` about keys and names, which no change to a record can break. */
    ghost predicate Keyed()
      reads this
    {
      Distinct(order)
      && (forall k :: k in data <==> k in order)
      && (forall k :: k in data ==> data[k].name == k)
    }

    ghost predicate RecordsValid()
      reads this, data.Values
    {
      forall k :: k in data ==> data[k].Valid()
    }

    constructor ()
      ensures Valid() && order == [] && data == map[]
    {
      order := [];
      data := map[];
    }

    /** `add_record`: stores the record under its name, replacing any earlier record of that name. */
    method AddRecord(record: Record)
      requires Valid() && record.Valid()
      modifies this
      ensures Valid()
      ensures data == old(data)[record.name := record]
      ensures order == if record.name in old(data) then old(order) else old(order) + [record.name]
    {
      if record.name !in data {
        order := order + [record.name];
      }
      data := data[record.name := record];
    }

    /** `find`: exact-key lookup. */
    function Find(name: string): (r: Option<Record>)
      requires Valid()
      reads this, data.Values
      ensures r.Some? <==> name in data
      ensures r.Some? ==> r.value == data[name] && r.value.name == name && r.value.Valid()
    {
      if name in data then Some(data[name]) else None
    }

    /** `delete`: True exactly when the name was a key; only that key goes. */
    method Delete(name: string) returns (removed: bool)
      requires Valid()
      modifies this
      ensures Valid()
      ensures removed <==> name in old(data)
      ensures data == old(data) - {name}
      ensures order == if removed then RemoveFirst(old(order), name) else old(order)
    {
      if name in data {
        RemoveFirstDistinct(order, name);
        order := RemoveFirst(order, name);
        data := data - {name};
        return true;
      }
      return false;
    }

    /** The book as values: each name's phone strings and birthday. */
    ghost function Cards(): map<string, Card>
      reads this, data.Values
    {
      map k | k in data :: Card(Values(data[k].phones), data[k].birthday)
    }

    /** The records as `get_upcoming_birthdays` visits them. */
    function Entries(): (es: seq<Entry>)
      requires Valid()
      reads this, data.Values
      ensures |es| == |order|
      ensures forall i :: 0 <= i < |es| ==> HasValidBirthday(es[i])
    {
      EntriesOf(order, data)
    }

    /**
     * `get_upcoming_birthdays`, with the current date as a parameter: the greetings for
     * the records whose next birthday is 0 to 7 days away, in book order.
     */
    method UpcomingBirthdays(today: Date) returns (r: Result<seq<Upcoming>>)
      requires Valid() && IsValid(today)
      ensures r == UpcomingOf(Entries(), today)
    {
      ghost var entries := Entries();
      ghost var steps := Steps(entries, today);
      var upcoming: seq<Upcoming> := [];
      var i := 0;
      while i < |order|
        invariant 0 <= i <= |order|
        invariant Collect(steps[..i]) == Ok(upcoming)
      {
        var record := data[order[i]];
        var step := Step(Entry(record.name, record.birthday), today);
        assert entries[i] == Entry(record.name, record.birthday);
        assert steps[i] == step;
        match step {
          case Err(e) =>
            CollectStopsAt(steps, i);
            return Err(e);
          case Ok(None) =>
            CollectNext(steps, i);
            assert upcoming + [] == upcoming;
          case Ok(Some(u)) =>
            CollectNext(steps, i);
            upcoming := upcoming + [u];
        }
        i := i + 1;
      }
      assert steps[..i] == steps;
      return Ok(upcoming);
    }
  }
}

=== FILE: errors.dfy ===
/** Outcomes of operations that may raise, and the exception kinds the bot tells apart. */
module Errors {

  /** The Python exception classes that the modelled code raises or catches. */
  datatype Exception = ValueError | KeyError | IndexError | OverflowError

  /** A computation that either returns a value or raises an exception. */
  datatype Result<+T> = Ok(value: T) | Err(error: Exception)

  /** Python's `Optional[T]`: a value or `None`. */
  datatype Option<+T> = None | Some(value: T)
}

=== FILE: fields.dfy ===
/**
 * The validated field types of a contact: `Phone`, a string holding exactly ten digit
 * characters and kept as given, and `Birthday`, a `DD.MM.YYYY` string parsed into a date.
 * Only ASCII digits count as digits.
 */
module Fields {
  import opened Errors
  import opened Calendar

  predicate IsDigit(c: char) {
    '0' <= c <= '9'
  }

  predicate AllDigits(s: string) {
    forall i :: 0 <= i < |s| ==> IsDigit(s[i])
  }

  /** The digit characters of `s`, in order: `''.join(ch for ch in s if ch.isdigit())`. */
  function Digits(s: string): (r: string)
    ensures |r| <= |s|
    ensures AllDigits(r)
  {
    if s == [] then []
    else (if IsDigit(s[0]) then [s[0]] else []) + Digits(s[1..])
  }

  /** The digit string keeps every digit of `s`, as often as it occurs, and nothing else. */
  lemma {:induction false} DigitsCounts(s: string)
    ensures forall c :: multiset(Digits(s))[c] == if IsDigit(c) then multiset(s)[c] else 0
  {
    if s != [] {
      DigitsCounts(s[1..]);
      assert s == [s[0]] + s[1..];
    }
  }

  /** A string made of digits only is its own digit string. */
  lemma {:induction false} DigitsOfDigitString(s: string)
    requires AllDigits(s)
    ensures Digits(s) == s
  {
    if s != [] {
      DigitsOfDigitString(s[1..]);
    }
  }

  /** `Phone._validate`: ValueError unless exactly ten digit characters; the value is kept as given. */
  function ValidatePhone(value: string): (r: Result<string>)
    ensures r.Ok? <==> |Digits(value)| == 10
    ensures r.Ok? ==> r.value == value
    ensures r.Err? ==> r.error == ValueError
  {
    if |Digits(value)| != 10 then Err(ValueError) else Ok(value)
  }

  /**
   * A phone number. It defines no equality of its own, so two phones are the same only
   * when they are the same object.
   */
  class Phone {
    const value: string

    /** What every Phone object satisfies, since its constructor validates. */
    predicate Valid() {
      ValidatePhone(value).Ok?
    }

    constructor (value: string)
      requires ValidatePhone(value).Ok?
      ensures this.value == value && Valid()
    {
      this.value := value;
    }

    /** `Phone(value)`: a new object, or the ValueError that `_validate` raises. */
    static method Create(value: string) returns (r: Result<Phone>)
      ensures r.Ok? <==> ValidatePhone(value).Ok?
      ensures r.Err? ==> r.error == ValueError
      ensures r.Ok? ==> fresh(r.value) && r.value.value == value && r.value.Valid()
    {
      var checked := ValidatePhone(value);
      if checked.Err? {
        return Err(checked.error);
      }
      var p := new Phone(checked.value);
      return Ok(p);
    }
  }

  /** The `str | Phone` arguments of the Record methods. */
  datatype PhoneArg = Text(text: string) | Instance(phone: Phone)

  /** Whether turning the argument into a Phone succeeds. */
  predicate Accepted(arg: PhoneArg) {
    arg.Instance? || ValidatePhone(arg.text).Ok?
  }

  /** The string the resulting Phone holds. */
  function ArgValue(arg: PhoneArg): string {
    match arg
    case Text(s) => s
    case Instance(p) => p.value
  }

  /** `phone if isinstance(phone, Phone) else Phone(phone)`. */
  method AsPhone(arg: PhoneArg) returns (r: Result<Phone>)
    ensures r.Ok? <==> Accepted(arg)
    ensures r.Err? ==> r.error == ValueError
    ensures r.Ok? ==> r.value.value == ArgValue(arg)
    ensures r.Ok? && arg.Instance? ==> r.value == arg.phone
    ensures r.Ok? && arg.Text? ==> fresh(r.value) && r.value.Valid()
  {
    match arg
    case Instance(p) => r := Ok(p);
    case Text(s) => r := Phone.Create(s);
  }

  // ---------------------------------------------------------------------------
  // Birthday: the zero-padded `DD.MM.YYYY` form read by strptime and written by strftime

  function DigitValue(c: char): int
    requires IsDigit(c)
  {
    c as int - '0' as int
  }

  function DigitChar(n: int): (c: char)
    requires 0 <= n < 10
    ensures IsDigit(c) && DigitValue(c) == n
  {
    ('0' as int + n) as char
  }

  /** Two digits, a dot, two digits, a dot, four digits. */
  predicate IsDateText(s: string) {
    |s| == 10 && s[2] == '.' && s[5] == '.'
    && IsDigit(s[0]) && IsDigit(s[1]) && IsDigit(s[3]) && IsDigit(s[4])
    && IsDigit(s[6]) && IsDigit(s[7]) && IsDigit(s[8]) && IsDigit(s[9])
  }

  /** The day, month and year numbers written in a `DD.MM.YYYY` string. */
  function DateFields(s: string): Date
    requires IsDateText(s)
  {
    Date(1000 * DigitValue(s[6]) + 100 * DigitValue(s[7]) + 10 * DigitValue(s[8]) + DigitValue(s[9]),
         10 * DigitValue(s[3]) + DigitValue(s[4]),
         10 * DigitValue(s[0]) + DigitValue(s[1]))
  }

  function Pad2(n: int): (r: string)
    requires 0 <= n < 100
    ensures |r| == 2 && AllDigits(r) && 10 * DigitValue(r[0]) + DigitValue(r[1]) == n
  {
    [DigitChar(n / 10), DigitChar(n % 10)]
  }

  function Pad4(n: int): (r: string)
    requires 0 <= n < 10000
    ensures |r| == 4 && AllDigits(r)
    ensures 1000 * DigitValue(r[0]) + 100 * DigitValue(r[1]) + 10 * DigitValue(r[2]) + DigitValue(r[3]) == n
  {
    Pad2(n / 100) + Pad2(n % 100)
  }

  /** `strftime("%d.%m.%Y")`: the date written back as a `DD.MM.YYYY` string. */
  function FormatDate(d: Date): (r: string)
    requires IsValid(d)
    ensures IsDateText(r) && DateFields(r) == d
  {
    Pad2(d.day) + "." + Pad2(d.month) + "." + Pad4(d.year)
  }

  /**
   * `Birthday(value)`: the date of a `DD.MM.YYYY` string, or ValueError for a malformed
   * string or a day that does not exist in the calendar.
   */
  function ParseBirthday(s: string): (r: Result<Date>)
    ensures r.Ok? <==> IsDateText(s) && IsValid(DateFields(s))
    ensures r.Err? ==> r.error == ValueError
    ensures r.Ok? ==> IsValid(r.value) && FormatDate(r.value) == s
  {
    if IsDateText(s) && IsValid(DateFields(s)) then
      var d := DateFields(s);
      FormatOfDateText(s);
      Ok(d)
    else Err(ValueError)
  }

  lemma DigitCharOfValue(c: char)
    requires IsDigit(c)
    ensures DigitChar(DigitValue(c)) == c
  {
  }

  lemma Pad2OfDigits(a: char, b: char)
    requires IsDigit(a) && IsDigit(b)
    ensures Pad2(10 * DigitValue(a) + DigitValue(b)) == [a, b]
  {
    DigitCharOfValue(a);
    DigitCharOfValue(b);
  }

  /** A `DD.MM.YYYY` string is the formatting of the numbers written in it. */
  lemma FormatOfDateText(s: string)
    requires IsDateText(s) && IsValid(DateFields(s))
    ensures FormatDate(DateFields(s)) == s
  {
    var d := DateFields(s);
    Pad2OfDigits(s[0], s[1]);
    Pad2OfDigits(s[3], s[4]);
    Pad2OfDigits(s[6], s[7]);
    Pad2OfDigits(s[8], s[9]);
    assert d.year / 100 == 10 * DigitValue(s[6]) + DigitValue(s[7]);
    assert d.year % 100 == 10 * DigitValue(s[8]) + DigitValue(s[9]);
    assert s == [s[0], s[1]] + "." + [s[3], s[4]] + "." + ([s[6], s[7]] + [s[8], s[9]]);
  }

  /** Formatting a valid date and parsing the text gives the date back. */
  lemma FormatThenParse(d: Date)
    requires IsValid(d)
    ensures ParseBirthday(FormatDate(d)) == Ok(d)
  {
  }

  /** 29 February parses only in a leap year. */
  lemma LeapDayParsing()
    ensures ParseBirthday("29.02.2023") == Err(ValueError)
    ensures ParseBirthday("29.02.2024") == Ok(Date(2024, 2, 29))
  {
  }

  /** `Record.add_birthday` takes a string or an already-built Birthday. */
  datatype BirthdayArg = BirthdayText(text: string) | BirthdayInstance(date: Date)

  /** `birthday if isinstance(birthday, Birthday) else Birthday(birthday)`. */
  function AsBirthday(arg: BirthdayArg): (r: Result<Date>)
    requires arg.BirthdayInstance? ==> IsValid(arg.date)
    ensures r.Ok? ==> IsValid(r.value)
    ensures arg.BirthdayInstance? ==> r == Ok(arg.date)
    ensures arg.BirthdayText? ==> r == ParseBirthday(arg.text)
  {
    match arg
    case BirthdayText(s) => ParseBirthday(s)
    case BirthdayInstance(d) => Ok(d)
  }
}

=== FILE: schedule.dfy ===
/**
 * The date arithmetic of `AddressBook.get_upcoming_birthdays`, record by record: the next
 * occurrence of a birthday, the seven-day window, the move from a weekend to Monday, and
 * the list of greetings in book order. The current date is a parameter.
 */
module Schedule {
  import opened Errors
  import opened Calendar
  import opened Fields

  /** What `get_upcoming_birthdays` reads of a record: its name and its birthday. */
  datatype Entry = Entry(name: string, birthday: Option<Date>)

  /** One element of the result, `{"name": ..., "congratulation_date": ...}`. */
  datatype Upcoming = Upcoming(name: string, congratulationDate: string)

  predicate HasValidBirthday(e: Entry) {
    e.birthday.Some? ==> IsValid(e.birthday.value)
  }

  /** `d.replace(year=y)`: ValueError when that day does not exist in year `y`. */
  function ReplaceYear(d: Date, y: int): (r: Result<Date>)
    ensures r.Ok? <==> IsValid(Date(y, d.month, d.day))
    ensures r.Ok? ==> r.value == Date(y, d.month, d.day)
    ensures r.Err? ==> r.error == ValueError
  {
    var moved := Date(y, d.month, d.day);
    if IsValid(moved) then Ok(moved) else Err(ValueError)
  }

  /**
   * The birthday in the current year, or in the next year when it has already passed.
   * A 29 February birthday fails whenever the year it lands in is not a leap year.
   */
  function NextOccurrence(b: Date, today: Date): (r: Result<Date>)
    requires IsValid(b) && IsValid(today)
    ensures r.Err? ==> r.error == ValueError
    ensures r.Err? <==>
      var here := Date(today.year, b.month, b.day);
      !IsValid(here) || (Before(here, today) && !IsValid(Date(today.year + 1, b.month, b.day)))
    ensures r.Ok? ==> IsValid(r.value) && r.value.month == b.month && r.value.day == b.day
    ensures r.Ok? ==> !Before(r.value, today)
    ensures r.Ok? ==> r.value.year == today.year || r.value.year == today.year + 1
  {
    match ReplaceYear(b, today.year)
    case Err(e) => Err(e)
    case Ok(here) => if Before(here, today) then ReplaceYear(here, today.year + 1) else Ok(here)
  }

  /** The next occurrence is the earliest date on or after today with the birthday's day and month. */
  lemma NextOccurrenceIsEarliest(b: Date, today: Date, x: Date)
    requires IsValid(b) && IsValid(today) && NextOccurrence(b, today).Ok?
    requires IsValid(x) && x.month == b.month && x.day == b.day && !Before(x, today)
    ensures !Before(x, NextOccurrence(b, today).value)
  {
    var o := NextOccurrence(b, today).value;
    if x.year == today.year {
      assert o == x;
    }
  }

  /** The ordinal arithmetic of the weekend shift: no overflow, and the days skipped are weekend days. */
  lemma ShiftArithmetic(o: int, n: int)
    requires 1 <= o <= MaxOrdinal
    requires n == ShiftDays(WeekdayOf(o))
    ensures o + n <= MaxOrdinal
    ensures WeekdayOf(o + n) < 5
    ensures forall k :: o <= k < o + n ==> WeekdayOf(k) >= 5
  {
    assert WeekdayOf(MaxOrdinal) == 4;
  }

  /** How many days `get_upcoming_birthdays` adds to a date with weekday `w`. */
  function ShiftDays(w: int): nat {
    if w == 5 then 2 else if w == 6 then 1 else 0
  }

  /**
   * Saturday moves two days and Sunday one day on, to the following Monday; every other
   * day stays. The result is the first working day on or after `d`, and the addition
   * never passes `date.max`.
   */
  function WeekendShift(d: Date): (r: Result<Date>)
    requires IsValid(d)
    ensures r.Ok? && IsValid(r.value)
    ensures Weekday(r.value) < 5
    ensures ToOrdinal(d) <= ToOrdinal(r.value) <= ToOrdinal(d) + 2
    ensures Weekday(d) < 5 ==> r.value == d
    ensures forall k :: ToOrdinal(d) <= k < ToOrdinal(r.value) ==> WeekdayOf(k) >= 5
  {
    var n := ShiftDays(Weekday(d));
    var o := ToOrdinal(d);
    OrdinalRange(d);
    ShiftArithmetic(o, n);
    if n == 0 then Ok(d)
    else
      var r := AddDays(d, n);
      assert ToOrdinal(r.value) == o + n;
      assert Weekday(r.value) == WeekdayOf(o + n);
      r
  }

  /**
   * The congratulation date for one birthday: None outside the window of 0 to 7 days from
   * today, otherwise the next occurrence moved off the weekend.
   */
  function Congratulation(b: Date, today: Date): (r: Result<Option<Date>>)
    requires IsValid(b) && IsValid(today)
    ensures r.Ok? <==> NextOccurrence(b, today).Ok?
    ensures r.Err? ==> r.error == ValueError
    ensures r.Ok? ==>
      var o := NextOccurrence(b, today).value;
      ToOrdinal(today) <= ToOrdinal(o) && (r.value.Some? <==> ToOrdinal(o) - ToOrdinal(today) <= 7)
    ensures r.Ok? && r.value.Some? ==>
      var o := NextOccurrence(b, today).value;
      var c := r.value.value;
      IsValid(c) && Weekday(c) < 5
      && ToOrdinal(o) <= ToOrdinal(c) <= ToOrdinal(o) + 2
      && ToOrdinal(today) <= ToOrdinal(c) <= ToOrdinal(today) + 9
      && (Weekday(o) < 5 ==> c == o)
      && (forall k :: ToOrdinal(o) <= k < ToOrdinal(c) ==> WeekdayOf(k) >= 5)
  {
    match NextOccurrence(b, today)
    case Err(e) => Err(e)
    case Ok(o) =>
      OrdinalOrder(o, today);
      var delta := ToOrdinal(o) - ToOrdinal(today);
      if 0 <= delta <= 7 then
        match WeekendShift(o)
        case Err(e) => Err(e)
        case Ok(c) => Ok(Some(c))
      else Ok(None)
  }

  /** Whether a record belongs in the result: it has a birthday whose next occurrence is at most 7 days away. */
  predicate Included(e: Entry, today: Date)
    requires HasValidBirthday(e) && IsValid(today)
  {
    e.birthday.Some?
    && var o := NextOccurrence(e.birthday.value, today);
    o.Ok? && ToOrdinal(o.value) - ToOrdinal(today) <= 7
  }

  /** The loop body of `get_upcoming_birthdays` for one record. */
  function Step(e: Entry, today: Date): (r: Result<Option<Upcoming>>)
    requires HasValidBirthday(e) && IsValid(today)
    ensures r.Ok? <==> e.birthday.None? || NextOccurrence(e.birthday.value, today).Ok?
    ensures r.Err? ==> r.error == ValueError
    ensures r.Ok? ==> (r.value.Some? <==> Included(e, today))
    ensures r.Ok? && r.value.Some? ==>
      r.value.value.name == e.name
      && Congratulation(e.birthday.value, today).Ok?
      && Congratulation(e.birthday.value, today).value.Some?
      && ParseBirthday(r.value.value.congratulationDate)
         == Ok(Congratulation(e.birthday.value, today).value.value)
  {
    match e.birthday
    case None => Ok(None)
    case Some(b) =>
      match Congratulation(b, today)
      case Err(x) => Err(x)
      case Ok(None) => Ok(None)
      case Ok(Some(c)) =>
        FormatThenParse(c);
        Ok(Some(Upcoming(e.name, FormatDate(c))))
  }

  /**
   * The accumulation of the loop: the values of the `Some` steps in order, or the
   * error of the first failing step, which ends the loop.
   */
  function Collect<T>(steps: seq<Result<Option<T>>>): (r: Result<seq<T>>)
    ensures r.Err? ==> exists i :: 0 <= i < |steps| && steps[i] == Err(r.error)
    ensures r.Ok? ==> |r.value| <= |steps|
  {
    if steps == [] then Ok([])
    else
      var init := steps[..|steps| - 1];
      assert forall i :: 0 <= i < |init| ==> init[i] == steps[i];
      match Collect(init)
      case Err(x) => Err(x)
      case Ok(out) =>
        match steps[|steps| - 1]
        case Err(x) => Err(x)
        case Ok(None) => Ok(out)
        case Ok(Some(u)) => Ok(out + [u])
  }

  /** The accumulation fails exactly when some step fails. */
  lemma {:induction false} CollectFails<T>(steps: seq<Result<Option<T>>>)
    ensures Collect(steps).Err? <==> exists i :: 0 <= i < |steps| && steps[i].Err?
  {
    if steps != [] {
      var init := steps[..|steps| - 1];
      assert forall i :: 0 <= i < |init| ==> init[i] == steps[i];
      CollectFails(init);
    }
  }

  /** Every collected value comes from a step, and every `Some` step's value is collected. */
  lemma {:induction false} CollectExact<T>(steps: seq<Result<Option<T>>>)
    requires Collect(steps).Ok?
    ensures forall j :: 0 <= j < |Collect(steps).value| ==>
      exists i :: 0 <= i < |steps| && steps[i] == Ok(Some(Collect(steps).value[j]))
    ensures forall i :: 0 <= i < |steps| && steps[i].Ok? && steps[i].value.Some? ==>
      steps[i].value.value in Collect(steps).value
  {
    if steps != [] {
      var init := steps[..|steps| - 1];
      assert forall i :: 0 <= i < |init| ==> init[i] == steps[i];
      CollectExact(init);
      var head := Collect(init).value;
      var out := Collect(steps).value;
      assert out[..|head|] == head;
      forall j | 0 <= j < |out|
        ensures exists i :: 0 <= i < |steps| && steps[i] == Ok(Some(out[j]))
      {
        if j < |head| {
          assert out[j] == head[j];
        } else {
          assert steps[|steps| - 1] == Ok(Some(out[j]));
        }
      }
    }
  }

  /** Collecting keeps the order of the steps: the values of a prefix come first. */
  lemma CollectPrefix<T>(steps: seq<Result<Option<T>>>, k: nat)
    requires k <= |steps| && Collect(steps).Ok?
    ensures Collect(steps[..k]).Ok?
    ensures Collect(steps[..k]).value <= Collect(steps).value
    decreases |steps| - k
  {
    if k < |steps| {
      assert steps[..|steps| - 1][..k] == steps[..k];
      CollectPrefix(steps[..|steps| - 1], k);
    } else {
      assert steps[..k] == steps;
    }
  }

  /** One more successful step adds its value, if it has one, to what the prefix collected. */
  lemma CollectNext<T>(steps: seq<Result<Option<T>>>, i: nat)
    requires i < |steps| && Collect(steps[..i]).Ok? && steps[i].Ok?
    ensures Collect(steps[..i + 1])
      == Ok(Collect(steps[..i]).value + if steps[i].value.Some? then [steps[i].value.value] else [])
  {
    var prefix := steps[..i + 1];
    assert prefix[..|prefix| - 1] == steps[..i];
    assert prefix[|prefix| - 1] == steps[i];
    var out := Collect(steps[..i]).value;
    assert out + [] == out;
  }

  /** Once a step fails, the whole accumulation fails with its error. */
  lemma CollectStopsAt<T>(steps: seq<Result<Option<T>>>, i: nat)
    requires i < |steps| && steps[i].Err? && Collect(steps[..i]).Ok?
    ensures Collect(steps) == Err(steps[i].error)
    decreases |steps| - i
  {
    if i + 1 < |steps| {
      assert steps[..|steps| - 1][..i] == steps[..i];
      CollectStopsAt(steps[..|steps| - 1], i);
    } else {
      assert steps[..|steps| - 1] == steps[..i];
    }
  }

  /** The step results of a sequence of records, in book order. */
  function Steps(es: seq<Entry>, today: Date): (r: seq<Result<Option<Upcoming>>>)
    requires IsValid(today) && forall i :: 0 <= i < |es| ==> HasValidBirthday(es[i])
    ensures |r| == |es|
    ensures forall i :: 0 <= i < |es| ==> r[i] == Step(es[i], today)
  {
    seq(|es|, i requires 0 <= i < |es| => Step(es[i], today))
  }

  /** `get_upcoming_birthdays` over the records in book order: the first failing record aborts the call. */
  function UpcomingOf(es: seq<Entry>, today: Date): (r: Result<seq<Upcoming>>)
    requires IsValid(today) && forall i :: 0 <= i < |es| ==> HasValidBirthday(es[i])
    ensures r.Err? ==> r.error == ValueError
    ensures r.Ok? ==> |r.value| <= |es|
  {
    Collect(Steps(es, today))
  }

  /** The call raises ValueError exactly when some record's birthday cannot be moved into the year it needs. */
  lemma UpcomingFails(es: seq<Entry>, today: Date)
    requires IsValid(today) && forall i :: 0 <= i < |es| ==> HasValidBirthday(es[i])
    ensures UpcomingOf(es, today).Err? ==> UpcomingOf(es, today).error == ValueError
    ensures UpcomingOf(es, today).Err? <==>
      exists i :: 0 <= i < |es| && es[i].birthday.Some? && NextOccurrence(es[i].birthday.value, today).Err?
  {
    var steps := Steps(es, today);
    CollectFails(steps);
    if UpcomingOf(es, today).Err? {
      var i :| 0 <= i < |steps| && steps[i].Err?;
      assert Step(es[i], today).Err?;
    } else {
      forall i | 0 <= i < |es| && es[i].birthday.Some?
        ensures NextOccurrence(es[i].birthday.value, today).Ok?
      {
        assert steps[i].Ok?;
      }
    }
  }

  /**
   * When the call succeeds, every greeting comes from a record in the window, and every
   * record in the window has its greeting in the result.
   */
  lemma UpcomingExact(es: seq<Entry>, today: Date)
    requires IsValid(today) && forall i :: 0 <= i < |es| ==> HasValidBirthday(es[i])
    requires UpcomingOf(es, today).Ok?
    ensures forall j :: 0 <= j < |UpcomingOf(es, today).value| ==>
      exists i :: 0 <= i < |es| && Included(es[i], today) && Step(es[i], today) == Ok(Some(UpcomingOf(es, today).value[j]))
    ensures forall i :: 0 <= i < |es| && Included(es[i], today) ==>
      Step(es[i], today).Ok? && Step(es[i], today).value.value in UpcomingOf(es, today).value
  {
    var steps := Steps(es, today);
    CollectExact(steps);
    CollectFails(steps);
    var out := UpcomingOf(es, today).value;
    forall j | 0 <= j < |out|
      ensures exists i :: 0 <= i < |es| && Included(es[i], today) && Step(es[i], today) == Ok(Some(out[j]))
    {
      var i :| 0 <= i < |steps| && steps[i] == Ok(Some(out[j]));
      assert Step(es[i], today) == Ok(Some(out[j]));
    }
    forall i | 0 <= i < |es| && Included(es[i], today)
      ensures Step(es[i], today).Ok? && Step(es[i], today).value.value in out
    {
      assert steps[i] == Step(es[i], today);
    }
  }

  // ---------------------------------------------------------------------------
  // Worked cases

  /** A birthday on Saturday 15 June 2024, seen on Monday 10 June, is greeted on Monday 17 June. */
  lemma SaturdayBirthdayMovesToMonday()
    ensures Congratulation(Date(1990, 6, 15), Date(2024, 6, 10)) == Ok(Some(Date(2024, 6, 17)))
  {
    var b, today := Date(1990, 6, 15), Date(2024, 6, 10);
    var o, c := Date(2024, 6, 15), Date(2024, 6, 17);
    DaysBeforeYearIsFormula(2024);
    DaysBeforeMonthTable(2024, 6);
    assert ToOrdinal(today) == 739047;
    assert ToOrdinal(o) == 739052;
    assert ToOrdinal(c) == 739054;
    assert NextOccurrence(b, today) == Ok(o);
    var r := Congratulation(b, today).value.value;
    assert WeekdayOf(739052) == 5 && WeekdayOf(739053) == 6;
    OrdinalOrder(r, c);
  }

  /** Near the end of the year a birthday already past moves to next year and can still fall in the window. */
  lemma BirthdayAcrossNewYear()
    ensures Congratulation(Date(1990, 1, 2), Date(2023, 12, 30)) == Ok(Some(Date(2024, 1, 2)))
  {
    var b, today := Date(1990, 1, 2), Date(2023, 12, 30);
    var o := Date(2024, 1, 2);
    DaysBeforeYearIsFormula(2023);
    DaysBeforeYearIsFormula(2024);
    DaysBeforeMonthTable(2023, 12);
    assert ToOrdinal(today) == 738884;
    assert ToOrdinal(o) == 738887;
    assert NextOccurrence(b, today) == Ok(o);
    assert WeekdayOf(738887) == 1;
  }

  /** A 29 February birthday makes the whole computation raise ValueError in a year that is not a leap year. */
  lemma LeapDayBirthdayInCommonYear()
    ensures Congratulation(Date(2000, 2, 29), Date(2023, 3, 1)) == Err(ValueError)
  {
  }
}
